=== FILE: README.md ===
# Résumé content fitting

This project models the part of the AI résumé generator that makes a tailored
résumé fit on one page. It also models the small routine that turns a company
name into a folder name. The model is a set of pure Dafny functions over an
immutable résumé record.

- **Initial project cap** (`trim_projects_to_fit`). Each project keeps its
  first `max_bullets_initial` bullets. The generator asks for five bullets per
  project, and the default cap is three.
  The Dafny functions take Python's default arguments as parameter defaults:
  `max_bullets_initial=3`, `min_bullets=2`, `min_projects=2` and
  `max_lines=6`.
- **Height-driven reduction** (`trim_projects_further`). It works in integer
  height units: 14 per bullet, 13 per project header and 2 per spacer. It has
  three phases:
  1. Pop tail bullets, starting with the last project, down to
     `min_bullets`. One project is drained fully before the previous one is
     touched.
  2. Pop whole projects from the tail, keeping at least `min_projects`.
  3. If a project was dropped and the reduction overshot the target, put back
     previously trimmed bullets, most important project first. At most
     `overshoot // 14` bullets come back, and a restored list never grows
     past three bullets.
- **Skills fitting** (`trim_skills_to_fit`). Keep the first `max_lines`
  categories. Rebuild each comma-separated value from the longest leading run
  of items that fits the 180-character budget left after the
  `"• <category>: "` prefix. Each item costs its length plus 2.
- **Experience caps** (`clean_tailored_resume`). An entry whose lower-cased
  title contains `"intern"` keeps at most its first three bullets; every other
  entry keeps at most its first four. An entry without a title is tested on
  its role instead (main.py:433).
  The summary, every skills value and the bullets of experience, project
  and leadership entries go through the markdown-to-HTML converter. Names,
  titles, roles, dates and skill categories do not.
- **Company folder name** (`extract_company_name` in the web UI). Strip the
  reply, delete `< > : " / \ | ? *`, turn spaces into underscores, keep at
  most 50 characters, and fall back to `Unknown_Company` if nothing is left.

Files:

- `pytext.dfy` (`PyText`): the Python built-ins the code relies on, with
  CPython's semantics, except `lower` (ASCII letters only; see "Left out").
  This covers slicing with a negative stop, `str.strip()` over the full
  `str.isspace()` set, `split`, `join`, `lower` and the `in` substring test.
- `resume.dfy` (`ResumeData`): the résumé record. A section missing from the
  dictionary is `None`.
- `projects.dfy` (`ProjectFit`): `trim_projects_to_fit` and the three
  phases of `trim_projects_further`. Each loop is a recursive function over
  the loop's state.
- `skills.dfy` (`SkillsFit`): `trim_skills_to_fit`.
- `cleaning.dfy` (`ResumeCleaning`): `clean_tailored_resume`. The converter
  is a function parameter.
- `company.dfy` (`CompanyFolder`): the folder-name cleaning.

Points about the code that the model keeps exactly as written:

- Phase 3 caps a restored list at a hard-coded 3 bullets (main.py:176). It
  does not use `max_bullets_initial` or any other parameter.
  `ProjectFit.RestoreCap` is that constant.
- The skills budget is a fixed 180 characters per category (main.py:209).
  It is not a parameter.
- Phase 1 keeps trimming earlier projects until the target is met. Take
  three projects of three bullets, a cut of 51 units and floors of two.
  Phase 1 trims all three projects to two bullets, which saves 42 units.
  Phase 2 drops the last project, bringing the saving to 85. Phase 3 spends
  the 34-unit overshoot on two restored bullets. The first two projects end
  with three bullets each, 114 units in all.
  `ProjectFit.ThreeProjectExample` proves this.

## Model

| member | source | states |
|---|---|---|
| `ProjectFit.CapProjects` | main.py:114-117 | project count, order and every field but the bullets are kept; each bullet list becomes a prefix of length `min(len, cap)` |
| `ProjectFit.TrimProjectsToFit` | main.py:103-119 | a missing or empty projects section leaves the résumé unchanged; otherwise only the projects' bullet lists change, each to its leading `min(len, cap)` bullets, or to its first `max(0, len + cap)` bullets for a negative cap |
| `ProjectFit.CapProjectsIdempotent` | main.py:115-117 | capping twice with the same cap is capping once |
| `ProjectFit.FiveBulletsCappedToThree` | main.py:103-117 | a project generated with five bullets keeps exactly its first three when `TrimProjectsToFit` is called with its default arguments (cap 3) |
| `ProjectFit.DrainBullets` | main.py:145-147 | the inner loop pops only tail bullets and never goes below the floor; each pop credits exactly 14; no pop happens once the target is reached; it stops at the floor or at the target |
| `ProjectFit.TrimBulletsFrom` | main.py:138-149 | every visited project keeps a prefix of its bullets at or above the floor, or is untouched if it started at or below it; the credited reduction is 14 times the bullets removed; nothing is popped after the target is met; if the target is missed, every visited project is at its floor |
| `ProjectFit.TrimBullets` | main.py:135-149 | phase 1 from a zero reduction: prefix and floor per project, reduction equals 14 per removed bullet, a non-positive target changes nothing, and a missed target leaves every project at its floor |
| `ProjectFit.TrimBulletsTailFirst` | main.py:137-149 | phase 1 drains later projects first: if an earlier project lost a bullet, every later project is at its floor |
| `ProjectFit.DropProjects` | main.py:152-158 | survivors are a prefix of the list; the count stays at or above `min_projects` unless it started below; the credit equals the height of the removed projects (13 + 14·bullets + 2 each); the last removal was still needed; it stops at the floor or at the target |
| `ProjectFit.Refill` | main.py:174-180 | bullets are only appended, each the next original bullet, so the list stays a prefix of the original; one allowance unit per bullet; a list that grew holds at most 3 bullets and no more than the original; it stops only when saturated or when the allowance is spent |
| `ProjectFit.RestoreFrom` | main.py:167-182 | the project count is unchanged; each project only regains its own original bullets, up to the cap; at most `allowance` bullets come back in total; nothing changes when the allowance is not positive; leftover allowance means every project is saturated |
| `ProjectFit.RestoreFromInOrder` | main.py:166-182 | restoration goes in priority order: a later project regains a bullet only when every earlier one is saturated |
| `ProjectFit.OriginalBullets` | main.py:134 | the saved side table maps each index to that project's bullet list on entry |
| `ProjectFit.ReduceProjects` | main.py:132-184 | an empty list or a non-positive target changes nothing; the survivor count is between `min(len, min_projects)` and the input count; every survivor is its input project with a prefix of its bullets that respects the floor |
| `ProjectFit.ReduceWithoutDropIsPhaseOne` | main.py:151-164 | restoration runs only after a drop: when every project survives, the result is exactly phase 1's output |
| `ProjectFit.ReduceProjectsMeetsTarget` | main.py:137-182 | the estimated height saved reaches the target, unless the result is at both floors (project count and every survivor's bullets) |
| `ProjectFit.RestoreKeepsTarget` | main.py:162-180 | restoring `overshoot // 14` bullets gives back at most the overshoot, so the target stays met |
| `ProjectFit.FloorsWhenShort` | main.py:145-153 | when phases 1 and 2 fall short of the target, no restoration happens and both floors are reached |
| `ProjectFit.ThreeProjectExample` | main.py:122-185 | three projects of three bullets cut by 51 units with floors of two end as the first two projects, each with its three original bullets |
| `ProjectFit.TrimProjectsFurther` | main.py:122-185 | a missing or empty projects section, or a non-positive target, leaves the résumé unchanged; nothing outside the projects changes; the project count stays between the floor and the input count; every survivor is its input project with a prefix of its bullets that respects the floor |
| `ProjectFit.TrimProjectsFurtherMeetsTarget` | main.py:122-185 | on the résumé, a positive target is met in estimated height unless the projects left are at both floors |
| `SkillsFit.ParseItems` | main.py:216 | splitting on commas and stripping gives at least one item, and every item is comma-free and stripped |
| `SkillsFit.FitItems` | main.py:217-226 | the kept items are a leading run of the items whose total cost fits the budget (or none), and every longer leading run exceeds it: the longest fitting prefix |
| `SkillsFit.FitItemsAll` | main.py:220-224 | when all items fit, all are kept |
| `SkillsFit.TrimSkills` | main.py:196-228 | an empty section is unchanged; the kept categories are the leading ones in order, `min(count, max_lines)` of them (a negative limit drops that many from the end); each keeps its key and gets its category's fitted value |
| `SkillsFit.LongestFitUnique` | main.py:217-226 | at most one leading run of items is the longest one within budget, so the greedy loop's result is fully determined by that property |
| `SkillsFit.TrimSkillsFitsEachCategory` | main.py:209-228 | every kept category's value is the longest fitting leading run of its original stripped items, joined by `", "`, and re-reading the value gives those items back whole |
| `SkillsFit.TrimSkillsToFit` | main.py:188-230 | a missing skills section leaves the résumé unchanged; only the skills section changes; it keeps its leading `min(count, max_lines)` categories in order, each with its fitted value |
| `SkillsFit.FitCategoryKeepsWholeItems` | main.py:211-228 | the fitted value is the longest fitting leading run of the original stripped items, and re-reading it gives back exactly those items, so no item is split |
| `SkillsFit.FitCategory` | main.py:213-228 | one category's rebuilt value: empty, or short enough that the `"• <category>: "` prefix plus the value plus 2 is at most 180 characters |
| `SkillsFit.FitCategoryIdempotent` | main.py:211-228 | fitting a category value a second time changes nothing |
| `SkillsFit.TrimSkillsIdempotent` | main.py:193-230 | trimming the skills section twice with the same non-negative limit is trimming once |
| `ResumeCleaning.CleanExperience` | main.py:429-440 | an intern entry keeps its first `min(len, 3)` bullets and any other entry its first `min(len, 4)`, each converted; other fields are unchanged |
| `ResumeCleaning.JobTitle` | main.py:433 | the title when the entry has one, even an empty one; otherwise the role; otherwise the empty string |
| `ResumeCleaning.CleanSkills` | main.py:424-426 | every category keeps its name and position, and its value is the converted value |
| `ResumeCleaning.CleanTailoredResume` | main.py:416-454 | summary and skills values are converted, with categories kept; experience entries are capped by role and converted; project and leadership bullet counts are unchanged and each bullet is converted; missing sections stay missing |
| `ResumeCleaning.InternRoleMeansOccurrence` | main.py:433-434 | an entry counts as an intern role exactly when "intern" occurs in its lower-cased title, or in its role when there is no title |
| `ResumeCleaning.InternTitleExample` | main.py:433-435 | "Data Science Intern" is an intern title: the test ignores case |
| `ResumeCleaning.InternRoleExample` | main.py:433-435 | with no title, the role "SOFTWARE INTERN" makes the entry an intern role |
| `ResumeCleaning.InternalCountsAsIntern` | main.py:433-435 | "Internal Tools Engineer" also gets the intern cap, because the test is a plain substring test |
| `ResumeCleaning.TitleBeforeRole` | main.py:433 | a title without "intern" wins over a role that has it |
| `CompanyFolder.RemoveForbidden` | app.py:46 | the result has no forbidden character; every character comes from the input; a non-forbidden first character stays first; a clean input is unchanged |
| `CompanyFolder.RemoveForbiddenKeepsOthers` | app.py:46 | every character that is not forbidden keeps all of its occurrences |
| `CompanyFolder.RemoveForbiddenConcat` | app.py:46 | deleting distributes over concatenation, so the surviving characters keep their order |
| `CompanyFolder.QuestionMarkDeleted` | app.py:46 | `"a?b"` becomes `"ab"` |
| `CompanyFolder.ReplaceSpaces` | app.py:47 | the length is unchanged; every space becomes `_` and every other character stays as it is |
| `CompanyFolder.CompanyFolderName` | app.py:43-51 | the name is never empty, at most 50 characters, and free of forbidden characters and spaces; it is the fallback exactly when cleaning leaves nothing, and otherwise the first `min(len, 50)` characters of the cleaned reply |
| `CompanyFolder.FolderNameFromReply` | app.py:43-48 | apart from the fallback, every character of the name comes from the reply, or is an underscore standing for a space in the reply |
| `CompanyFolder.FilterReplaceCommute` | app.py:46-47 | deleting forbidden characters and replacing spaces commute |
| `CompanyFolder.SafeNameUnchanged` | app.py:43-51 | a name that is already folder-safe is returned as it is |
| `CompanyFolder.CleaningTwiceIsCleaningOnce` | app.py:43-51 | cleaning a folder name a second time changes nothing, provided it does not begin or end with other whitespace |
| `CompanyFolder.TabSurvives` | app.py:47 | only the space is replaced: a tab inside the name survives |
| `CompanyFolder.OnlyForbiddenFallsBack` | app.py:46-51 | a reply of nothing but forbidden characters gives the fallback name |
| `PyText.CapLength` | main.py:116-117 | the guarded slice used for both project bullets and skill categories keeps a prefix of length `min(len, n)`, or drops `-n` elements from the end for a negative `n` |
| `PyText.PyPrefix` | main.py:204 | a Python slice `s[:stop]` is a prefix of `s` of length `min(len, stop)`, or `max(0, len + stop)` for a negative stop |
| `PyText.Strip` | app.py:43 | the result is an infix of the input with only whitespace before and after it, and it neither starts nor ends with whitespace; an already-stripped string is unchanged |
| `PyText.Split` | main.py:216 | splitting gives at least one part, and no part contains the separator |
| `PyText.SplitJoin` | main.py:216 | splitting a joined list of separator-free parts gives back the parts |
| `PyText.JoinSplit` | main.py:216 | joining the parts of a split gives back the string |
| `PyText.ReparseJoin` | main.py:216-228 | re-reading a `", "`-joined list of stripped, comma-free items the way the skills code reads a value gives back the items |
| `PyText.Join` | main.py:228 | joining no parts gives `""`; otherwise the first part leads, and the length is the parts' total length plus one separator between each neighbouring pair |
| `PyText.Lower` | main.py:433 | only ASCII letters are lowered (see "Left out"): the length is unchanged, each A-Z becomes its lower-case letter, every other character stays, and the result has no A-Z left |
| `PyText.LowerIdempotent` | main.py:433 | lower-casing twice is lower-casing once |
| `PyText.Contains` | main.py:434 | `sub in s` holds only when `sub` fits in `s`; an occurrence at the start or at the very end is found |
| `PyText.ContainsAt` | main.py:434 | the substring test holds exactly when the substring occurs at some position |

## Left out

- LLM access and its parsing are not modelled: the job-description parser, résumé tailoring, the answer generator and the provider switch. They are network calls whose replies cannot be modelled.
- `convert_markdown_to_html` is a `string -> string` parameter of `ResumeCleaning.CleanTailoredResume`. Its regular-expression rewriting is not modelled, and no count property depends on it.
- `get_base_resume` is left out. It is static data.
- The command-line driver and the PDF renderer are left out. `resume_builder` is not part of this model.
- Everything else in app.py is left out: the Streamlit UI, the Gemini call and its rate-limit retry with sleeps, and directory creation. The model starts from the reply text.
- server.py is not part of this model. It is Flask routing and file serving, and its URL parsing calls a library that is not modelled.
- Heights are the code's integer proxies (14, 13, 2). Real rendered heights and font metrics are not modelled.
- An entry without a `bullets` key is modelled as one with an empty list. Every path in the fitting code treats the two alike.
- A section whose value is `None` is modelled like a missing key: it is left unchanged. Python behaves the same way in several places:
  - `trim_projects_to_fit` and `trim_projects_further` return the résumé unchanged on `projects: None`, because `not None` holds (main.py:109, 129).
  - A `None` summary passes through `convert_markdown_to_html` unchanged (main.py:407-408, 421).

  Python raises instead in these places, and those exceptions are not modelled:
  - `trim_skills_to_fit` on `skills: None`, at `len(None)` (main.py:197).
  - `clean_tailored_resume` on a `None` skills, experience, projects or leadership section, when it loops over the section (main.py:425, 430, 444, 450).
- A field that is present but `null` inside an entry cannot be represented, and the exceptions Python raises for it are not modelled. A `"title": null` makes `.lower()` raise at main.py:433, and `tailor_resume` then falls back to the base résumé (main.py:546-555). A `"bullets": null` makes `len` raise at main.py:116 and the copy raise at main.py:134. In the model, `Option` on `title` and `role` means the key is absent, and `bullets` is always a list.
- Résumé fields that no fitting code reads are not in the record: `name`, `contact`, `education`, each entry's `location`, and a leadership entry's `organization` and `dates`.
- `ProjectFit.TrimProjectsFurther`: `min_bullets` and `min_projects` are natural numbers. In Python a negative floor acts like a floor of 0, except that Python raises when a bullet list, or the project list, empties before the target is met (`pop` on an empty list at main.py:146 and main.py:154). The model takes natural-number floors and does not model that exception.
- `ProjectFit.ReduceProjectsMeetsTarget` is stated in estimated height units, not rendered height.
- `PyText.Lower` lower-cases ASCII letters only; Python's full Unicode lower-casing is not modelled. For the `"intern"` test the two agree. Only two non-ASCII characters lower-case to something that contains an ASCII letter. The Kelvin sign (U+212A) becomes `k`, which `"intern"` does not contain. The dotted İ (U+0130) becomes `i` followed by a combining dot, so in Python that `i` is never directly followed by `n`.
- Skills are a sequence of (category, value) pairs. The uniqueness of dictionary keys is not enforced.
- The diagnostic `print` of each removed project name is left out.

=== FILE: cleaning.dfy ===
/** `clean_tailored_resume`: the summary, every skills value and the bullets
    of experience, project and leadership entries are passed through the
    markdown-to-HTML converter; names, titles, roles, dates and skill
    categories are not. Each experience entry is cut to its first three
    bullets when its title mentions "intern" and to its first four otherwise.
    The converter is a parameter: its regular-expression rewriting is not part
    of this model, and none of the counting properties depend on what it does
    to a single string. */
module ResumeCleaning {
  import opened PyText
  import opened ResumeData

  const InternBulletCap: nat := 3
  const FullTimeBulletCap: nat := 4

  /** `[convert(b) for b in bullets]`. */
  function ConvertAll(convert: string -> string, bullets: seq<string>): (r: seq<string>)
    ensures |r| == |bullets|
    ensures forall k | 0 <= k < |r| :: r[k] == convert(bullets[k])
  {
    seq(|bullets|, k requires 0 <= k < |bullets| => convert(bullets[k]))
  }

  /** `exp.get('title', exp.get('role', ''))`: the title when the entry has
      one, even an empty one; otherwise the role; otherwise the empty string. */
  function JobTitle(e: Experience): (t: string)
    ensures e.title.Some? ==> t == e.title.value
    ensures e.title.None? && e.role.Some? ==> t == e.role.value
    ensures e.title.None? && e.role.None? ==> t == ""
  {
    match e.title
    case Some(t) => t
    case None => (match e.role case Some(r) => r case None => "")
  }

  /** `'intern' in job_title.lower()`. */
  predicate IsInternRole(e: Experience) {
    Contains(Lower(JobTitle(e)), "intern")
  }

  /** How many bullets an experience entry keeps. */
  function BulletCap(e: Experience): nat {
    if IsInternRole(e) then InternBulletCap else FullTimeBulletCap
  }

  function CleanExperience(convert: string -> string, e: Experience): (r: Experience)
    ensures r == e.(bullets := r.bullets)
    ensures IsInternRole(e) ==> |r.bullets| == Min(|e.bullets|, 3)
    ensures !IsInternRole(e) ==> |r.bullets| == Min(|e.bullets|, 4)
    ensures forall k | 0 <= k < |r.bullets| :: r.bullets[k] == convert(e.bullets[k])
  {
    e.(bullets := ConvertAll(convert, e.bullets[..Min(|e.bullets|, BulletCap(e))]))
  }

  function CleanSkills(convert: string -> string, skills: Skills): (r: Skills)
    ensures |r| == |skills|
    ensures forall k | 0 <= k < |r| :: r[k] == (skills[k].0, convert(skills[k].1))
  {
    seq(|skills|, k requires 0 <= k < |skills| => (skills[k].0, convert(skills[k].1)))
  }

  /** `cleaned` is the first `n` bullets of `bullets`, each converted. */
  predicate ConvertedPrefix(convert: string -> string, bullets: seq<string>, cleaned: seq<string>, n: int) {
    && |cleaned| == n
    && n <= |bullets|
    && forall j | 0 <= j < n :: cleaned[j] == convert(bullets[j])
  }

  /** `clean_tailored_resume`: experience entries are capped and converted;
      project and leadership entries keep every bullet, each converted; the
      summary and every skills value are converted; categories stay as they
      are. */
  function CleanTailoredResume(convert: string -> string, r: Resume): (r': Resume)
    ensures r'.summary == (match r.summary case Some(s) => Some(convert(s)) case None => None)
    ensures r'.skills.Some? <==> r.skills.Some?
    ensures r.skills.Some? ==> (
      && |r'.skills.value| == |r.skills.value|
      && forall k | 0 <= k < |r.skills.value| ::
           r'.skills.value[k] == (r.skills.value[k].0, convert(r.skills.value[k].1)))
    ensures r'.experience.Some? <==> r.experience.Some?
    ensures r.experience.Some? ==> (
      && |r'.experience.value| == |r.experience.value|
      && forall k | 0 <= k < |r.experience.value| ::
           var e, e' := r.experience.value[k], r'.experience.value[k];
           && e' == e.(bullets := e'.bullets)
           && ConvertedPrefix(convert, e.bullets, e'.bullets, Min(|e.bullets|, if IsInternRole(e) then 3 else 4)))
    ensures r'.projects.Some? <==> r.projects.Some?
    ensures r.projects.Some? ==> (
      && |r'.projects.value| == |r.projects.value|
      && forall k | 0 <= k < |r.projects.value| ::
           var p, p' := r.projects.value[k], r'.projects.value[k];
           p' == p.(bullets := p'.bullets) && ConvertedPrefix(convert, p.bullets, p'.bullets, |p.bullets|))
    ensures r'.leadership.Some? <==> r.leadership.Some?
    ensures r.leadership.Some? ==> (
      && |r'.leadership.value| == |r.leadership.value|
      && forall k | 0 <= k < |r.leadership.value| ::
           var a, a' := r.leadership.value[k], r'.leadership.value[k];
           a' == a.(bullets := a'.bullets) && ConvertedPrefix(convert, a.bullets, a'.bullets, |a.bullets|))
  {
    Resume(
      match r.summary case Some(s) => Some(convert(s)) case None => None,
      match r.skills case Some(sk) => Some(CleanSkills(convert, sk)) case None => None,
      match r.experience
        case Some(es) => Some(seq(|es|, k requires 0 <= k < |es| => CleanExperience(convert, es[k])))
        case None => None,
      match r.projects
        case Some(ps) => Some(seq(|ps|, k requires 0 <= k < |ps| =>
          ps[k].(bullets := ConvertAll(convert, ps[k].bullets))))
        case None => None,
      match r.leadership
        case Some(ls) => Some(seq(|ls|, k requires 0 <= k < |ls| =>
          ls[k].(bullets := ConvertAll(convert, ls[k].bullets))))
        case None => None)
  }

  /** An entry counts as an internship exactly when "intern" occurs somewhere
      in its lower-cased title (or role, when it has no title). */
  lemma InternRoleMeansOccurrence(e: Experience)
    ensures IsInternRole(e) <==> exists i :: OccursAt(Lower(JobTitle(e)), "intern", i)
  {
    ContainsAt(Lower(JobTitle(e)), "intern");
  }

  /** The test is case-insensitive and uses the title before the role. */
  lemma InternTitleExample()
    ensures IsInternRole(Experience("EazyML", Some("Data Science Intern"), None, "", []))
  {
    var t := Lower("Data Science Intern");
    assert t[|t| - 6..] == "intern";
  }

  lemma InternRoleExample()
    ensures IsInternRole(Experience("Acme", None, Some("SOFTWARE INTERN"), "", []))
  {
    var t := Lower("SOFTWARE INTERN");
    assert t[|t| - 6..] == "intern";
  }

  /** The test is a plain substring test: "Internal" counts as well. */
  lemma InternalCountsAsIntern()
    ensures IsInternRole(Experience("Acme", Some("Internal Tools Engineer"), None, "", []))
  {
    var t := Lower("Internal Tools Engineer");
    assert t[..6] == "intern";
  }

  /** A title is preferred to a role, even when only the role mentions "intern". */
  lemma TitleBeforeRole()
    ensures !IsInternRole(Experience("White Tree Devices", Some("AI Engineer"), Some("Intern"), "", []))
  {
    var t := Lower("AI Engineer");
    assert t == "ai engineer";
    forall i ensures !OccursAt(t, "intern", i) {
      if 0 <= i <= |t| - 6 {
        assert t[i..i + 6][0] == t[i] && t[i..i + 6][1] == t[i + 1];
      }
    }
    ContainsAt(t, "intern");
  }
}

=== FILE: company.dfy ===
/** The folder-name cleaning inside `extract_company_name` of the web UI, as
    a pure function from the text of the Gemini reply (app.py:43) to the
    folder name: strip, delete the characters `< > : " / \ | ? *`, turn
    spaces into underscores, keep at most 50 characters, and fall back to
    "Unknown_Company" when nothing is left. */
module CompanyFolder {
  import opened PyText

  const MaxNameLength: nat := 50
  const FallbackName: string := "Unknown_Company"

  /** The characters of the regular-expression class `[<>:"/\\|?*]`. */
  predicate IsForbidden(c: char) {
    c == '<' || c == '>' || c == ':' || c == '"' || c == '/' || c == '\\' || c == '|' || c == '?' || c == '*'
  }

  /** `re.sub(r'[<>:"/\\|?*]', '', s)`: the characters of `s` that are not
      forbidden, in order. Every other character keeps all its occurrences. */
  function RemoveForbidden(s: string): (r: string)
    decreases |s|
    ensures |r| <= |s|
    ensures forall k | 0 <= k < |r| :: !IsForbidden(r[k]) && r[k] in s
    ensures |s| > 0 && !IsForbidden(s[0]) ==> |r| > 0 && r[0] == s[0]
    ensures (forall k | 0 <= k < |s| :: !IsForbidden(s[k])) ==> r == s
  {
    if |s| == 0 then ""
    else (if IsForbidden(s[0]) then "" else [s[0]]) + RemoveForbidden(s[1..])
  }

  /** Every character that is not forbidden keeps all of its occurrences. */
  lemma {:induction false} RemoveForbiddenKeepsOthers(s: string)
    ensures forall c | !IsForbidden(c) :: multiset(RemoveForbidden(s))[c] == multiset(s)[c]
    decreases |s|
  {
    if |s| > 0 {
      RemoveForbiddenKeepsOthers(s[1..]);
      var head := if IsForbidden(s[0]) then "" else [s[0]];
      var rest := RemoveForbidden(s[1..]);
      assert RemoveForbidden(s) == head + rest;
      assert s == [s[0]] + s[1..];
      assert multiset(s) == multiset([s[0]]) + multiset(s[1..]);
      assert multiset(head + rest) == multiset(head) + multiset(rest);
    }
  }

  /** Filtering distributes over concatenation, so the surviving characters
      keep their relative order. */
  lemma {:induction false} RemoveForbiddenConcat(a: string, b: string)
    ensures RemoveForbidden(a + b) == RemoveForbidden(a) + RemoveForbidden(b)
    decreases |a|
  {
    if |a| > 0 {
      assert (a + b)[0] == a[0];
      assert (a + b)[1..] == a[1..] + b;
      RemoveForbiddenConcat(a[1..], b);
      var head := if IsForbidden(a[0]) then "" else [a[0]];
      Assoc(head, RemoveForbidden(a[1..]), RemoveForbidden(b));
    } else {
      assert a + b == b;
    }
  }

  /** Only the forbidden character goes: `"a?b"` becomes `"ab"`. */
  lemma QuestionMarkDeleted()
    ensures RemoveForbidden("a?b") == "ab"
  {
    RemoveForbiddenConcat("a?", "b");
    RemoveForbiddenConcat("a", "?");
    assert "a?" + "b" == "a?b" && "a" + "?" == "a?";
  }

  /** `s.replace(' ', '_')`: every space becomes an underscore, and nothing
      else changes. */
  function ReplaceSpaces(s: string): (r: string)
    ensures |r| == |s|
    ensures forall k | 0 <= k < |s| :: r[k] == (if s[k] == ' ' then '_' else s[k])
  {
    seq(|s|, k requires 0 <= k < |s| => if s[k] == ' ' then '_' else s[k])
  }

  /** The cleaned name before truncation. */
  function CleanName(raw: string): string {
    ReplaceSpaces(RemoveForbidden(Strip(raw)))
  }

  /** The folder name for the Gemini reply `raw`: never empty, at most 50
      characters, free of forbidden characters and spaces; either the first
      50 characters of the cleaned reply or, when that is empty, the fallback. */
  function CompanyFolderName(raw: string): (name: string)
    ensures name != ""
    ensures |name| <= MaxNameLength
    ensures forall k | 0 <= k < |name| :: !IsForbidden(name[k]) && name[k] != ' '
    ensures CleanName(raw) == "" ==> name == FallbackName
    ensures CleanName(raw) != "" ==>
      IsPrefix(name, CleanName(raw)) && |name| == Min(|CleanName(raw)|, MaxNameLength)
  {
    var cleaned := CleanName(raw);
    var name := cleaned[..Min(|cleaned|, MaxNameLength)];
    CleanNameIsSafe(raw);
    FallbackIsSafe();
    if name == "" then FallbackName else name
  }

  lemma CleanNameIsSafe(raw: string)
    ensures forall k | 0 <= k < |CleanName(raw)| :: !IsForbidden(CleanName(raw)[k]) && CleanName(raw)[k] != ' '
  {
    var f := RemoveForbidden(Strip(raw));
    forall k | 0 <= k < |f| ensures !IsForbidden(ReplaceSpaces(f)[k]) && ReplaceSpaces(f)[k] != ' ' {
      assert !IsForbidden(f[k]);
    }
  }

  lemma FallbackIsSafe()
    ensures IsSafeName(FallbackName)
  {
  }

  /** Every character of the folder name came from the reply, except the
      underscores that stand for spaces and the fallback name. */
  lemma FolderNameFromReply(raw: string)
    ensures var name := CompanyFolderName(raw);
      name == FallbackName || forall k | 0 <= k < |name| :: name[k] in raw || (name[k] == '_' && ' ' in raw)
  {
    var name := CompanyFolderName(raw);
    var s := Strip(raw);
    var f := RemoveForbidden(s);
    if name != FallbackName {
      forall k | 0 <= k < |name| ensures name[k] in raw || (name[k] == '_' && ' ' in raw) {
        assert name[k] == ReplaceSpaces(f)[k];
        assert f[k] in s;
      }
    }
  }

  lemma ReplaceSpacesConcat(a: string, b: string)
    ensures ReplaceSpaces(a + b) == ReplaceSpaces(a) + ReplaceSpaces(b)
  {
  }

  /** Deleting forbidden characters and replacing spaces commute, so the
      order of those two steps does not matter. */
  lemma {:induction false} FilterReplaceCommute(s: string)
    ensures RemoveForbidden(ReplaceSpaces(s)) == ReplaceSpaces(RemoveForbidden(s))
    decreases |s|
  {
    if |s| > 0 {
      var t := ReplaceSpaces(s);
      var head := if IsForbidden(s[0]) then "" else [s[0]];
      var rest := RemoveForbidden(s[1..]);
      assert t[1..] == ReplaceSpaces(s[1..]);
      assert IsForbidden(t[0]) == IsForbidden(s[0]);
      assert (if IsForbidden(t[0]) then "" else [t[0]]) == ReplaceSpaces(head);
      calc {
        RemoveForbidden(t);
        ReplaceSpaces(head) + RemoveForbidden(ReplaceSpaces(s[1..]));
        { FilterReplaceCommute(s[1..]); }
        ReplaceSpaces(head) + ReplaceSpaces(rest);
        { ReplaceSpacesConcat(head, rest); }
        ReplaceSpaces(head + rest);
      }
    }
  }

  /** A name that is already folder-safe. */
  predicate IsSafeName(s: string) {
    && s != ""
    && |s| <= MaxNameLength
    && IsStripped(s)
    && forall k | 0 <= k < |s| :: !IsForbidden(s[k]) && s[k] != ' '
  }

  /** A name that is already folder-safe is left exactly as it is. */
  lemma SafeNameUnchanged(s: string)
    requires IsSafeName(s)
    ensures CompanyFolderName(s) == s
  {
    assert Strip(s) == s;
    assert RemoveForbidden(s) == s;
    assert ReplaceSpaces(s) == s;
  }

  /** Cleaning a folder name again changes nothing, as long as the name does
      not begin or end with whitespace other than a space (a tab, say, that a
      deleted character had kept away from the end before stripping). */
  lemma CleaningTwiceIsCleaningOnce(raw: string)
    requires IsStripped(CompanyFolderName(raw))
    ensures CompanyFolderName(CompanyFolderName(raw)) == CompanyFolderName(raw)
  {
    SafeNameUnchanged(CompanyFolderName(raw));
  }

  /** Only the space is replaced: other whitespace inside the name survives. */
  lemma TabSurvives()
    ensures CompanyFolderName("Acme\tLabs") == "Acme\tLabs"
  {
    var s := "Acme\tLabs";
    assert IsStripped(s);
    assert forall k | 0 <= k < |s| :: !IsForbidden(s[k]) && s[k] != ' ';
    SafeNameUnchanged(s);
  }

  /** A reply with nothing but forbidden characters falls back to the
      default folder name. */
  lemma OnlyForbiddenFallsBack()
    ensures CompanyFolderName("?*") == FallbackName
  {
    assert IsStripped("?*");
    assert RemoveForbidden("?*") == "";
  }
}

=== FILE: projects.dfy ===
/** Fitting the projects section into the page: the initial per-project bullet
    cap, and the three-phase height-driven reduction (trim bullets from the
    last project backwards, then drop whole projects from the tail, then give
    the over-freed room back as restored bullets, most important project
    first). Heights are integer proxies: 14 units per bullet, 13 per project
    header and 2 per spacer. */
module ProjectFit {
  import opened PyText
  import opened ResumeData

  const BulletHeight: nat := 14
  const HeaderHeight: nat := 13
  const SpacerHeight: nat := 2
  /** Restoration never grows a bullet list past this many bullets. */
  const RestoreCap: nat := 3

  // ---------------------------------------------------------------------------
  // Initial cap
  // ---------------------------------------------------------------------------

  /** Every project keeps its top-ranked bullets; projects themselves are
      neither removed nor reordered. */
  function CapProjects(ps: seq<Project>, maxBullets: int): (r: seq<Project>)
    ensures |r| == |ps|
    ensures forall k | 0 <= k < |ps| ::
      r[k] == ps[k].(bullets := r[k].bullets) && IsPrefix(r[k].bullets, ps[k].bullets)
    ensures maxBullets >= 0 ==> forall k | 0 <= k < |ps| ::
      |r[k].bullets| == Min(|ps[k].bullets|, maxBullets)
    ensures maxBullets < 0 ==> forall k | 0 <= k < |ps| ::
      |r[k].bullets| == Max(0, |ps[k].bullets| + maxBullets)
  {
    seq(|ps|, k requires 0 <= k < |ps| => ps[k].(bullets := CapLength(ps[k].bullets, maxBullets)))
  }

  /** `trim_projects_to_fit`, with the same default arguments. Its
      `min_bullets` and `min_projects` parameters are accepted and ignored. */
  function TrimProjectsToFit(r: Resume, maxBulletsInitial: int := 3, minBullets: int := 2, minProjects: int := 2): (r': Resume)
    ensures r'.(projects := r.projects) == r
    ensures r.projects.None? || |r.projects.value| == 0 ==> r' == r
    ensures r.projects.Some? ==> r'.projects.Some? && |r'.projects.value| == |r.projects.value|
    ensures r.projects.Some? ==> forall k | 0 <= k < |r.projects.value| ::
      var p, q := r.projects.value[k], r'.projects.value[k];
      q == p.(bullets := q.bullets) && IsPrefix(q.bullets, p.bullets)
      && (maxBulletsInitial >= 0 ==> |q.bullets| == Min(|p.bullets|, maxBulletsInitial))
      && (maxBulletsInitial < 0 ==> |q.bullets| == Max(0, |p.bullets| + maxBulletsInitial))
  {
    if r.projects.None? || |r.projects.value| == 0 then r
    else r.(projects := Some(CapProjects(r.projects.value, maxBulletsInitial)))
  }

  /** Capping twice with the same non-negative cap is the same as capping once. */
  lemma CapProjectsIdempotent(ps: seq<Project>, maxBullets: int)
    requires maxBullets >= 0
    ensures CapProjects(CapProjects(ps, maxBullets), maxBullets) == CapProjects(ps, maxBullets)
  {
    var once := CapProjects(ps, maxBullets);
    var twice := CapProjects(once, maxBullets);
    forall k | 0 <= k < |ps| ensures twice[k] == once[k] {
      assert once[k].bullets == ps[k].bullets[..|once[k].bullets|];
    }
  }

  /** A project generated with five bullets keeps exactly its first three
      when `TrimProjectsToFit` runs with its default arguments. */
  lemma FiveBulletsCappedToThree(r: Resume, name: string, dates: string, b: seq<string>)
    requires |b| == 5
    requires r.projects == Some([Project(name, dates, b)])
    ensures CapProjects([Project(name, dates, b)], 3) == [Project(name, dates, b[..3])]
    ensures TrimProjectsToFit(r) == r.(projects := Some([Project(name, dates, b[..3])]))
  {
  }

  // ---------------------------------------------------------------------------
  // Height accounting
  // ---------------------------------------------------------------------------

  /** Total number of bullets over all projects. */
  function BulletCount(ps: seq<Project>): nat
    decreases |ps|
  {
    if |ps| == 0 then 0 else BulletCount(ps[..|ps| - 1]) + |ps[|ps| - 1].bullets|
  }

  /** Height credited for removing one project: header, bullets and spacer. */
  function EntryHeight(p: Project): nat {
    HeaderHeight + |p.bullets| * BulletHeight + SpacerHeight
  }

  /** Estimated height of a projects section. */
  function Height(ps: seq<Project>): nat {
    (HeaderHeight + SpacerHeight) * |ps| + BulletHeight * BulletCount(ps)
  }

  lemma HeightOfLast(ps: seq<Project>)
    requires |ps| > 0
    ensures Height(ps) == Height(ps[..|ps| - 1]) + EntryHeight(ps[|ps| - 1])
  {
  }

  /** Replacing one project changes the bullet count by the difference of its
      bullet-list lengths. */
  lemma {:induction false} BulletCountUpdate(ps: seq<Project>, i: nat, p: Project)
    requires i < |ps|
    ensures BulletCount(ps[i := p]) == BulletCount(ps) - |ps[i].bullets| + |p.bullets|
    decreases |ps|
  {
    var n := |ps|;
    if i == n - 1 {
      assert ps[i := p][..n - 1] == ps[..n - 1];
    } else {
      assert ps[i := p][..n - 1] == ps[..n - 1][i := p];
      BulletCountUpdate(ps[..n - 1], i, p);
    }
  }

  // ---------------------------------------------------------------------------
  // Phase 1: trim bullets, last project first
  // ---------------------------------------------------------------------------

  /** Project `q` came from `p` by dropping tail bullets, never below the
      floor unless `p` was already at or below it (then `q` is `p`). */
  predicate TrimmedFrom(p: Project, q: Project, minBullets: nat) {
    && q == p.(bullets := q.bullets)
    && IsPrefix(q.bullets, p.bullets)
    && (|q.bullets| >= minBullets || q.bullets == p.bullets)
  }

  /** Project `q` holds exactly as many bullets as the floor allows for `p`. */
  predicate AtFloor(p: Project, q: Project, minBullets: nat) {
    |q.bullets| == Min(|p.bullets|, minBullets)
  }

  datatype Trimmed = Trimmed(projects: seq<Project>, reduction: int)

  /** The inner `while` of phase 1: pop the last bullet while the list is above
      the floor and the target is not yet reached, crediting one bullet height
      per pop. */
  function DrainBullets(bullets: seq<string>, reduction: int, target: int, minBullets: nat): (r: (seq<string>, int))
    decreases |bullets|
    ensures IsPrefix(r.0, bullets)
    ensures |r.0| >= minBullets || r.0 == bullets
    ensures r.1 == reduction + BulletHeight * (|bullets| - |r.0|)
    ensures |r.0| < |bullets| ==> r.1 - BulletHeight < target
    ensures |r.0| <= minBullets || r.1 >= target
  {
    if |bullets| > minBullets && reduction < target then
      DrainBullets(bullets[..|bullets| - 1], reduction + BulletHeight, target, minBullets)
    else (bullets, reduction)
  }

  /** The outer `for` of phase 1 from project `i - 1` down to project 0.
      Projects at index `i` and above have already been visited. */
  function TrimBulletsFrom(ps: seq<Project>, i: nat, reduction: int, target: int, minBullets: nat): (r: Trimmed)
    requires i <= |ps|
    decreases i
    ensures |r.projects| == |ps|
    ensures forall k | i <= k < |ps| :: r.projects[k] == ps[k]
    ensures forall k | 0 <= k < i :: TrimmedFrom(ps[k], r.projects[k], minBullets)
    ensures r.reduction == reduction + BulletHeight * (BulletCount(ps) - BulletCount(r.projects))
    ensures r.reduction >= reduction
    ensures r.reduction > reduction ==> r.reduction - BulletHeight < target
    ensures reduction >= target ==> r == Trimmed(ps, reduction)
    ensures r.reduction < target ==> forall k | 0 <= k < i :: AtFloor(ps[k], r.projects[k], minBullets)
  {
    if i == 0 || reduction >= target then Trimmed(ps, reduction)
    else
      var d := DrainBullets(ps[i - 1].bullets, reduction, target, minBullets);
      var ps' := ps[i - 1 := ps[i - 1].(bullets := d.0)];
      BulletCountUpdate(ps, i - 1, ps[i - 1].(bullets := d.0));
      TrimBulletsFrom(ps', i - 1, d.1, target, minBullets)
  }

  /** Phase 1 of `trim_projects_further`, starting from a zero reduction. */
  function TrimBullets(ps: seq<Project>, target: int, minBullets: nat): (r: Trimmed)
    ensures |r.projects| == |ps|
    ensures forall k | 0 <= k < |ps| :: TrimmedFrom(ps[k], r.projects[k], minBullets)
    ensures r.reduction == BulletHeight * (BulletCount(ps) - BulletCount(r.projects))
    ensures r.reduction > 0 ==> r.reduction - BulletHeight < target
    ensures target <= 0 ==> r == Trimmed(ps, 0)
    ensures r.reduction < target ==> forall k | 0 <= k < |ps| :: AtFloor(ps[k], r.projects[k], minBullets)
  {
    TrimBulletsFrom(ps, |ps|, 0, target, minBullets)
  }

  /** Phase 1 drains one project completely before it touches the previous
      one: once an earlier project lost a bullet, every later project is at
      its floor. */
  lemma {:induction false} TrimBulletsFromTailFirst(ps: seq<Project>, i: nat, reduction: int, target: int, minBullets: nat)
    requires i <= |ps|
    ensures var r := TrimBulletsFrom(ps, i, reduction, target, minBullets);
      forall j, k | 0 <= j < k < i :: r.projects[j] != ps[j] ==> AtFloor(ps[k], r.projects[k], minBullets)
    decreases i
  {
    if i > 0 && reduction < target {
      var d := DrainBullets(ps[i - 1].bullets, reduction, target, minBullets);
      var ps' := ps[i - 1 := ps[i - 1].(bullets := d.0)];
      var r := TrimBulletsFrom(ps, i, reduction, target, minBullets);
      assert r == TrimBulletsFrom(ps', i - 1, d.1, target, minBullets);
      TrimBulletsFromTailFirst(ps', i - 1, d.1, target, minBullets);
      // a change below i - 1 means the drain of i - 1 ended short of the target
      assert d.1 >= target ==> r.projects == ps';
      forall j, k | 0 <= j < k < i && r.projects[j] != ps[j]
        ensures AtFloor(ps[k], r.projects[k], minBullets)
      {
        if k == i - 1 {
          assert ps'[j] == ps[j];
        } else {
          assert ps'[j] == ps[j] && ps'[k] == ps[k];
        }
      }
    }
  }

  lemma TrimBulletsTailFirst(ps: seq<Project>, target: int, minBullets: nat)
    ensures var r := TrimBullets(ps, target, minBullets);
      forall j, k | 0 <= j < k < |ps| :: r.projects[j] != ps[j] ==> AtFloor(ps[k], r.projects[k], minBullets)
  {
    TrimBulletsFromTailFirst(ps, |ps|, 0, target, minBullets);
  }

  // ---------------------------------------------------------------------------
  // Phase 2: drop whole projects from the tail
  // ---------------------------------------------------------------------------

  /** The phase 2 `while`: pop the last project while more than `minProjects`
      remain and the target is not reached, crediting its header, bullets and
      spacer. */
  function DropProjects(ps: seq<Project>, reduction: int, target: int, minProjects: nat): (r: Trimmed)
    decreases |ps|
    ensures IsPrefix(r.projects, ps)
    ensures |r.projects| >= minProjects || r.projects == ps
    ensures r.reduction == reduction + Height(ps) - Height(r.projects)
    ensures r.reduction >= reduction
    ensures |r.projects| < |ps| ==> r.reduction - EntryHeight(ps[|r.projects|]) < target
    ensures |r.projects| <= minProjects || r.reduction >= target
    ensures reduction >= target ==> r == Trimmed(ps, reduction)
  {
    if |ps| > minProjects && reduction < target then
      HeightOfLast(ps);
      DropProjects(ps[..|ps| - 1], reduction + EntryHeight(ps[|ps| - 1]), target, minProjects)
    else Trimmed(ps, reduction)
  }

  // ---------------------------------------------------------------------------
  // Phase 3: restore trimmed bullets into the room a dropped project freed
  // ---------------------------------------------------------------------------

  /** `original_bullets.get(i, [])`. */
  function OriginalAt(originals: seq<seq<string>>, i: int): seq<string> {
    if 0 <= i < |originals| then originals[i] else []
  }

  /** `b` cannot take another restored bullet: it has all of its original
      bullets back, or it has reached the restoration cap. */
  predicate Saturated(b: seq<string>, original: seq<string>) {
    |b| >= |original| || |b| >= RestoreCap
  }

  /** The phase 3 inner `while`: append `original[len(current)]` while bullets
      are missing, the allowance is positive and the list holds fewer than
      three bullets. The second component is the allowance left. */
  function Refill(current: seq<string>, original: seq<string>, allowance: int): (r: (seq<string>, int))
    decreases |original| - |current|
    ensures IsPrefix(current, r.0)
    ensures IsPrefix(current, original) ==> IsPrefix(r.0, original)
    ensures |r.0| - |current| == allowance - r.1
    ensures r.1 <= allowance && (allowance >= 0 ==> r.1 >= 0)
    ensures |r.0| > |current| ==> |r.0| <= RestoreCap && |r.0| <= |original|
    ensures Saturated(r.0, original) || r.1 <= 0
  {
    if |current| < |original| && allowance > 0 && |current| < RestoreCap then
      Refill(current + [original[|current|]], original, allowance - 1)
    else (current, allowance)
  }

  /** Project `q` is `p` with restored bullets appended: it stays a prefix of
      its original list whenever `p` was one, and grows only up to the cap. */
  predicate RestoredFrom(p: Project, q: Project, original: seq<string>) {
    && q == p.(bullets := q.bullets)
    && IsPrefix(p.bullets, q.bullets)
    && (IsPrefix(p.bullets, original) ==> IsPrefix(q.bullets, original))
    && (|q.bullets| > |p.bullets| ==> |q.bullets| <= Min(RestoreCap, |original|))
  }

  /** The phase 3 `for` from project `i` on, with `allowance` bullets left to
      restore; it stops as soon as the allowance is used up. */
  function RestoreFrom(ps: seq<Project>, originals: seq<seq<string>>, i: nat, allowance: int): (r: seq<Project>)
    requires i <= |ps|
    decreases |ps| - i
    ensures |r| == |ps|
    ensures forall k | 0 <= k < i :: r[k] == ps[k]
    ensures forall k | i <= k < |ps| :: RestoredFrom(ps[k], r[k], OriginalAt(originals, k))
    ensures BulletCount(r) >= BulletCount(ps)
    ensures BulletCount(r) - BulletCount(ps) <= Max(allowance, 0)
    ensures allowance <= 0 ==> r == ps
    ensures BulletCount(r) - BulletCount(ps) < allowance ==>
      forall k | i <= k < |ps| :: Saturated(r[k].bullets, OriginalAt(originals, k))
  {
    if i == |ps| || allowance <= 0 then ps
    else
      var f := Refill(ps[i].bullets, OriginalAt(originals, i), allowance);
      var ps' := ps[i := ps[i].(bullets := f.0)];
      BulletCountUpdate(ps, i, ps[i].(bullets := f.0));
      RestoreFrom(ps', originals, i + 1, f.1)
  }

  /** Restoration follows priority order: a later project receives a bullet
      only once every earlier project is saturated. */
  lemma {:induction false} RestoreFromInOrder(ps: seq<Project>, originals: seq<seq<string>>, i: nat, allowance: int)
    requires i <= |ps|
    ensures var r := RestoreFrom(ps, originals, i, allowance);
      forall j, k | i <= j < k < |ps| :: r[k] != ps[k] ==> Saturated(r[j].bullets, OriginalAt(originals, j))
    decreases |ps| - i
  {
    if i < |ps| && allowance > 0 {
      var f := Refill(ps[i].bullets, OriginalAt(originals, i), allowance);
      var ps' := ps[i := ps[i].(bullets := f.0)];
      var r := RestoreFrom(ps, originals, i, allowance);
      assert r == RestoreFrom(ps', originals, i + 1, f.1);
      RestoreFromInOrder(ps', originals, i + 1, f.1);
      // a later project gaining a bullet means allowance was left after project i
      assert f.1 <= 0 ==> r == ps';
      forall j, k | i <= j < k < |ps| && r[k] != ps[k]
        ensures Saturated(r[j].bullets, OriginalAt(originals, j))
      {
        if j == i {
          assert r[i] == ps'[i];
          assert ps'[k] == ps[k];
        } else {
          assert ps'[k] == ps[k];
        }
      }
    }
  }

  // ---------------------------------------------------------------------------
  // trim_projects_further
  // ---------------------------------------------------------------------------

  /** The bullet lists as they were on entry, indexed by project position. */
  function OriginalBullets(ps: seq<Project>): (o: seq<seq<string>>)
    ensures |o| == |ps|
    ensures forall k | 0 <= k < |ps| :: o[k] == ps[k].bullets
  {
    seq(|ps|, k requires 0 <= k < |ps| => ps[k].bullets)
  }

  /** Dropping tail projects after phase 1 keeps every survivor trimmed from
      its input project. */
  lemma DroppedStillTrimmed(ps: seq<Project>, t1: seq<Project>, t2: seq<Project>, minBullets: nat)
    requires |t1| == |ps| && forall k | 0 <= k < |ps| :: TrimmedFrom(ps[k], t1[k], minBullets)
    requires IsPrefix(t2, t1)
    ensures forall k | 0 <= k < |t2| :: TrimmedFrom(ps[k], t2[k], minBullets)
  {
    forall k | 0 <= k < |t2| ensures TrimmedFrom(ps[k], t2[k], minBullets) {
      assert t2[k] == t1[k];
    }
  }

  /** Restoring from the saved originals keeps every project trimmed from its
      input project: restored bullets are the ones phase 1 removed, in order. */
  lemma RestoredStillTrimmed(ps: seq<Project>, cur: seq<Project>, minBullets: nat, allowance: int)
    requires |cur| <= |ps| && forall k | 0 <= k < |cur| :: TrimmedFrom(ps[k], cur[k], minBullets)
    ensures var r := RestoreFrom(cur, OriginalBullets(ps), 0, allowance);
      forall k | 0 <= k < |r| :: TrimmedFrom(ps[k], r[k], minBullets)
  {
    var originals := OriginalBullets(ps);
    var r := RestoreFrom(cur, originals, 0, allowance);
    forall k | 0 <= k < |r| ensures TrimmedFrom(ps[k], r[k], minBullets) {
      assert OriginalAt(originals, k) == ps[k].bullets;
      assert RestoredFrom(cur[k], r[k], ps[k].bullets);
    }
  }

  /** The three phases of `trim_projects_further` on a projects list: the
      survivors are the leading projects, each keeping a leading part of its
      bullets and never going below the bullet floor it was above. */
  function ReduceProjects(ps: seq<Project>, target: int, minBullets: nat := 2, minProjects: nat := 2): (r: seq<Project>)
    ensures |ps| == 0 || target <= 0 ==> r == ps
    ensures Min(|ps|, minProjects) <= |r| <= |ps|
    ensures forall k | 0 <= k < |r| :: TrimmedFrom(ps[k], r[k], minBullets)
  {
    if |ps| == 0 then ps
    else
      var t1 := TrimBullets(ps, target, minBullets);
      var t2 := DropProjects(t1.projects, t1.reduction, target, minProjects);
      DroppedStillTrimmed(ps, t1.projects, t2.projects, minBullets);
      if |t2.projects| < |t1.projects| && t2.reduction > target then
        var allowance := (t2.reduction - target) / BulletHeight;
        RestoredStillTrimmed(ps, t2.projects, minBullets, allowance);
        RestoreFrom(t2.projects, OriginalBullets(ps), 0, allowance)
      else t2.projects
  }

  /** `trim_projects_further` on the résumé: a missing or empty projects
      section is returned as it is, and nothing outside it changes. */
  function TrimProjectsFurther(r: Resume, target: int, minBullets: nat := 2, minProjects: nat := 2): (r': Resume)
    ensures r'.(projects := r.projects) == r
    ensures r.projects.None? || target <= 0 ==> r' == r
    ensures r.projects.Some? ==>
      r'.projects.Some? && Min(|r.projects.value|, minProjects) <= |r'.projects.value| <= |r.projects.value|
    ensures r.projects.Some? ==> forall k | 0 <= k < |r'.projects.value| ::
      TrimmedFrom(r.projects.value[k], r'.projects.value[k], minBullets)
  {
    if r.projects.None? || |r.projects.value| == 0 then r
    else r.(projects := Some(ReduceProjects(r.projects.value, target, minBullets, minProjects)))
  }

  /** The reduced section is at its floors: no more projects than the floor
      allows and every survivor at its bullet floor. */
  predicate AtMinimum(ps: seq<Project>, r: seq<Project>, minBullets: nat, minProjects: nat)
    requires |r| <= |ps|
  {
    && |r| == Min(|ps|, minProjects)
    && forall k | 0 <= k < |r| :: AtFloor(ps[k], r[k], minBullets)
  }

  /** The reduction meets its target in estimated height, unless everything
      left is already at the floors; restoring bullets never gives back more
      room than the dropped project freed beyond the target. */
  lemma ReduceProjectsMeetsTarget(ps: seq<Project>, target: int, minBullets: nat, minProjects: nat)
    requires target > 0
    ensures var r := ReduceProjects(ps, target, minBullets, minProjects);
      Height(ps) - Height(r) >= target || AtMinimum(ps, r, minBullets, minProjects)
  {
    if |ps| > 0 {
      var t1 := TrimBullets(ps, target, minBullets);
      var t2 := DropProjects(t1.projects, t1.reduction, target, minProjects);
      assert Height(ps) - Height(t2.projects) == t2.reduction;
      if |t2.projects| < |t1.projects| && t2.reduction > target {
        RestoreKeepsTarget(t2.projects, OriginalBullets(ps), t2.reduction, target);
      } else if t2.reduction < target {
        FloorsWhenShort(ps, t1, t2, target, minBullets, minProjects);
      }
    }
  }

  /** `trim_projects_further` on the résumé meets a positive target in
      estimated height, unless the projects left are at both floors. */
  lemma TrimProjectsFurtherMeetsTarget(r: Resume, target: int, minBullets: nat, minProjects: nat)
    requires target > 0
    ensures var r' := TrimProjectsFurther(r, target, minBullets, minProjects);
      r.projects.Some? ==>
        var ps, qs := r.projects.value, r'.projects.value;
        Height(ps) - Height(qs) >= target || AtMinimum(ps, qs, minBullets, minProjects)
  {
    if r.projects.Some? {
      ReduceProjectsMeetsTarget(r.projects.value, target, minBullets, minProjects);
    }
  }

  /** Phase 3 restores at most `(reduction - target) // 14` bullets, so the
      height it gives back never undoes the target. */
  lemma RestoreKeepsTarget(cur: seq<Project>, originals: seq<seq<string>>, reduction: int, target: int)
    requires reduction > target
    ensures var r := RestoreFrom(cur, originals, 0, (reduction - target) / BulletHeight);
      |r| == |cur| && Height(r) - Height(cur) <= reduction - target
  {
    var allowance := (reduction - target) / BulletHeight;
    var r := RestoreFrom(cur, originals, 0, allowance);
    assert BulletHeight * allowance <= reduction - target;
    assert Height(r) - Height(cur) == BulletHeight * (BulletCount(r) - BulletCount(cur));
  }

  /** When phases 1 and 2 fall short of the target, both floors are reached. */
  lemma FloorsWhenShort(ps: seq<Project>, t1: Trimmed, t2: Trimmed, target: int, minBullets: nat, minProjects: nat)
    requires |ps| > 0
    requires t1 == TrimBullets(ps, target, minBullets)
    requires t2 == DropProjects(t1.projects, t1.reduction, target, minProjects)
    requires t2.reduction < target
    ensures ReduceProjects(ps, target, minBullets, minProjects) == t2.projects
    ensures AtMinimum(ps, t2.projects, minBullets, minProjects)
  {
    assert t1.reduction <= t2.reduction;
    forall k | 0 <= k < |t2.projects| ensures AtFloor(ps[k], t2.projects[k], minBullets) {
      assert t2.projects[k] == t1.projects[k];
    }
  }

  /** Phase 3 runs only after a project was dropped: when every project
      survives, the result is exactly phase 1's output. */
  lemma ReduceWithoutDropIsPhaseOne(ps: seq<Project>, target: int, minBullets: nat, minProjects: nat)
    ensures var r := ReduceProjects(ps, target, minBullets, minProjects);
      |r| == |ps| ==> r == TrimBullets(ps, target, minBullets).projects
  {
    if |ps| > 0 {
      var t1 := TrimBullets(ps, target, minBullets);
      var t2 := DropProjects(t1.projects, t1.reduction, target, minProjects);
      if |t2.projects| == |t1.projects| {
        assert t2.projects == t1.projects;
      }
    }
  }

  /** The three-project example: three projects of three bullets (171 units)
      to be cut by 51 units with floors of two. Phase 1 trims every project
      to two bullets (42 units), phase 2 drops the last project (43 more),
      and phase 3 spends the 34-unit overshoot on two restored bullets, so two
      projects of three bullets (114 units) remain. */
  lemma ThreeProjectExample(a: Project, b: Project, c: Project)
    requires |a.bullets| == 3 && |b.bullets| == 3 && |c.bullets| == 3
    ensures ReduceProjects([a, b, c], 51, 2, 2) == [a, b]
  {
    var ps := [a, b, c];
    var t1 := TrimBullets(ps, 51, 2);
    var a2, b2, c2 := a.(bullets := a.bullets[..2]), b.(bullets := b.bullets[..2]), c.(bullets := c.bullets[..2]);
    assert DrainBullets(c.bullets, 0, 51, 2) == (c.bullets[..2], 14);
    assert DrainBullets(b.bullets, 14, 51, 2) == (b.bullets[..2], 28);
    assert DrainBullets(a.bullets, 28, 51, 2) == (a.bullets[..2], 42);
    assert TrimBulletsFrom([a, b, c2], 2, 14, 51, 2) == TrimBulletsFrom([a, b2, c2], 1, 28, 51, 2);
    assert TrimBulletsFrom([a, b2, c2], 1, 28, 51, 2) == TrimBulletsFrom([a2, b2, c2], 0, 42, 51, 2);
    assert ps[2 := c2] == [a, b, c2];
    assert [a, b, c2][1 := b2] == [a, b2, c2];
    assert [a, b2, c2][0 := a2] == [a2, b2, c2];
    assert t1 == Trimmed([a2, b2, c2], 42);
    var t2 := DropProjects(t1.projects, 42, 51, 2);
    assert [a2, b2, c2][..2] == [a2, b2];
    assert t2 == Trimmed([a2, b2], 85);
    var originals := OriginalBullets(ps);
    assert (85 - 51) / BulletHeight == 2;
    assert a.bullets[..2] + [a.bullets[2]] == a.bullets;
    assert b.bullets[..2] + [b.bullets[2]] == b.bullets;
    assert Refill(a2.bullets, originals[0], 2) == (a.bullets, 1);
    assert Refill(b2.bullets, originals[1], 1) == (b.bullets, 0);
    assert [a2, b2][0 := a] == [a, b2];
    assert [a, b2][1 := b] == [a, b];
    assert RestoreFrom([a2, b2], originals, 0, 2) == RestoreFrom([a, b2], originals, 1, 1);
    assert RestoreFrom([a, b2], originals, 1, 1) == RestoreFrom([a, b], originals, 2, 0);
    assert ReduceProjects(ps, 51, 2, 2) == RestoreFrom([a2, b2], originals, 0, 2);
  }
}

=== FILE: pytext.dfy ===
/** The handful of Python string and list built-ins the résumé fitter relies on,
    written out with the semantics CPython gives them: slicing with a possibly
    negative stop, `str.strip()`, `str.split(sep)`, `sep.join(parts)`,
    `str.lower()` and the `in` substring test. */
module PyText {

  function Min(a: int, b: int): int { if a <= b then a else b }
  function Max(a: int, b: int): int { if a <= b then b else a }

  /** `a` is an initial segment of `b`. */
  predicate IsPrefix<T(==)>(a: seq<T>, b: seq<T>) {
    |a| <= |b| && a == b[..|a|]
  }

  /** Python `s[:stop]`: a negative stop counts from the end, and the result is
      clamped to the sequence. */
  function PyPrefix<T>(s: seq<T>, stop: int): (r: seq<T>)
    ensures |r| <= |s| && r == s[..|r|]
    ensures stop >= 0 ==> |r| == Min(|s|, stop)
    ensures stop < 0 ==> |r| == Max(0, |s| + stop)
  {
    if stop >= 0 then s[..Min(|s|, stop)] else s[..Max(0, |s| + stop)]
  }

  /** The guarded slice `if len(s) > n: s = s[:n]`: keep at most `n`
      leading elements; a negative `n` drops `-n` elements from the end. */
  function CapLength<T>(s: seq<T>, n: int): (r: seq<T>)
    ensures |r| <= |s| && r == s[..|r|]
    ensures n >= 0 ==> |r| == Min(|s|, n)
    ensures n < 0 ==> |r| == Max(0, |s| + n)
  {
    if |s| > n then PyPrefix(s, n) else s
  }

  /** The characters for which CPython's `str.isspace()` holds; `str.strip()`
      with no argument removes exactly these. */
  predicate IsSpace(c: char) {
    || ('\t' <= c <= '\r')
    || ('\U{1C}' <= c <= ' ')
    || c == '\U{85}' || c == '\U{A0}' || c == '\U{1680}'
    || ('\U{2000}' <= c <= '\U{200A}')
    || c == '\U{2028}' || c == '\U{2029}' || c == '\U{202F}'
    || c == '\U{205F}' || c == '\U{3000}'
  }

  /** Neither end of `s` is whitespace. */
  predicate IsStripped(s: string) {
    |s| == 0 || (!IsSpace(s[0]) && !IsSpace(s[|s| - 1]))
  }

  function TrimStart(s: string): (r: string)
    decreases |s|
    ensures |r| <= |s| && r == s[|s| - |r|..]
    ensures |r| == 0 || !IsSpace(r[0])
    ensures forall k | 0 <= k < |s| - |r| :: IsSpace(s[k])
  {
    if |s| > 0 && IsSpace(s[0]) then TrimStart(s[1..]) else s
  }

  function TrimEnd(s: string): (r: string)
    decreases |s|
    ensures |r| <= |s| && r == s[..|r|]
    ensures |r| == 0 || !IsSpace(r[|r| - 1])
    ensures forall k | |r| <= k < |s| :: IsSpace(s[k])
  {
    if |s| > 0 && IsSpace(s[|s| - 1]) then TrimEnd(s[..|s| - 1]) else s
  }

  /** `r` is `s` with only whitespace removed: the first `i` characters and
      everything after `r`. */
  predicate StrippedAt(s: string, r: string, i: int) {
    && 0 <= i <= |s| - |r|
    && r == s[i..i + |r|]
    && (forall k | 0 <= k < i :: IsSpace(s[k]))
    && (forall k | i + |r| <= k < |s| :: IsSpace(s[k]))
  }

  /** Python `s.strip()`: the infix of `s` left after removing the leading and
      trailing whitespace, so it neither starts nor ends with whitespace. */
  function Strip(s: string): (r: string)
    ensures IsStripped(r)
    ensures exists i :: StrippedAt(s, r, i)
    ensures forall c | c in r :: c in s
    ensures IsStripped(s) ==> r == s
  {
    TrimBothEnds(s);
    TrimEnd(TrimStart(s))
  }

  lemma TrimBothEnds(s: string)
    ensures var r := TrimEnd(TrimStart(s));
      && IsStripped(r)
      && StrippedAt(s, r, |s| - |TrimStart(s)|)
      && (forall c | c in r :: c in s)
  {
    TrimBothEndsInfix(s);
    var t := TrimStart(s);
    var r := TrimEnd(t);
    assert forall c | c in r :: c in t;
    if |r| > 0 {
      assert r[0] == t[0];
    }
  }

  lemma TrimBothEndsInfix(s: string)
    ensures StrippedAt(s, TrimEnd(TrimStart(s)), |s| - |TrimStart(s)|)
  {
    InfixOfSuffix(s, TrimStart(s), TrimEnd(TrimStart(s)));
  }

  /** A prefix `r` of a suffix `t` of `s`, with only whitespace cut away on
      both sides, is an infix of `s` with whitespace around it. */
  lemma InfixOfSuffix(s: string, t: string, r: string)
    requires |t| <= |s| && t == s[|s| - |t|..]
    requires forall k | 0 <= k < |s| - |t| :: IsSpace(s[k])
    requires |r| <= |t| && r == t[..|r|]
    requires forall k | |r| <= k < |t| :: IsSpace(t[k])
    ensures StrippedAt(s, r, |s| - |t|)
  {
    var i := |s| - |t|;
    assert r == s[i..i + |r|];
    forall k | i + |r| <= k < |s| ensures IsSpace(s[k]) {
      assert s[k] == t[k - i];
    }
  }

  /** A string made only of whitespace is removed entirely by `strip` when it
      precedes an already-stripped string. */
  lemma {:induction false} StripLeadingSpace(p: string, s: string)
    requires forall k | 0 <= k < |p| :: IsSpace(p[k])
    requires IsStripped(s)
    ensures Strip(p + s) == s
  {
    TrimStartSpaces(p, s);
  }

  lemma {:induction false} TrimStartSpaces(p: string, s: string)
    requires forall k | 0 <= k < |p| :: IsSpace(p[k])
    ensures TrimStart(p + s) == TrimStart(s)
    decreases |p|
  {
    if |p| > 0 {
      var q := p + s;
      assert q[0] == p[0] && IsSpace(q[0]);
      assert TrimStart(q) == TrimStart(q[1..]);
      assert q[1..] == p[1..] + s;
      TrimStartSpaces(p[1..], s);
    } else {
      assert p + s == s;
    }
  }

  /** Index of the first occurrence of `c` in `s`. */
  function IndexOf(s: string, c: char): (i: nat)
    requires c in s
    ensures i < |s| && s[i] == c && c !in s[..i]
  {
    if s[0] == c then 0 else
      var j := IndexOf(s[1..], c);
      assert s[..j + 1] == [s[0]] + s[1..][..j];
      j + 1
  }

  /** Python `s.split(sep)` for a one-character separator: always at least one
      part, and no part contains the separator. */
  function Split(s: string, sep: char): (parts: seq<string>)
    decreases |s|
    ensures |parts| >= 1
    ensures forall k | 0 <= k < |parts| :: sep !in parts[k]
  {
    if sep in s then
      var i := IndexOf(s, sep);
      [s[..i]] + Split(s[i + 1..], sep)
    else [s]
  }

  /** Python `sep.join(parts)`: the parts in order with one `sep` between
      each neighbouring pair. */
  function Join(parts: seq<string>, sep: string): (r: string)
    decreases |parts|
    ensures |parts| == 0 ==> r == ""
    ensures |parts| >= 1 ==> IsPrefix(parts[0], r)
    ensures |parts| >= 1 ==> |r| == TotalLength(parts) + |sep| * (|parts| - 1)
  {
    if |parts| == 0 then ""
    else if |parts| == 1 then parts[0]
    else
      var rest := Join(parts[1..], sep);
      assert |sep| * (|parts| - 1) == |sep| + |sep| * (|parts| - 2);
      parts[0] + sep + rest
  }

  /** Total length of the parts. */
  function TotalLength(parts: seq<string>): nat {
    if |parts| == 0 then 0 else |parts[0]| + TotalLength(parts[1..])
  }

  /** Python `[p.strip() for p in parts]`. */
  function StripAll(parts: seq<string>): (r: seq<string>)
    ensures |r| == |parts|
    ensures forall k | 0 <= k < |r| :: r[k] == Strip(parts[k])
  {
    if |parts| == 0 then [] else [Strip(parts[0])] + StripAll(parts[1..])
  }

  lemma {:induction false} IndexOfFirst(x: string, sep: char, rest: string)
    requires sep !in x
    ensures IndexOf(x + [sep] + rest, sep) == |x|
    decreases |x|
  {
    if |x| > 0 {
      var s := x + [sep] + rest;
      assert s[0] == x[0];
      assert s[1..] == x[1..] + [sep] + rest;
      IndexOfFirst(x[1..], sep, rest);
    }
  }

  lemma {:induction false} SplitAtFirst(x: string, sep: char, rest: string)
    requires sep !in x
    ensures Split(x + [sep] + rest, sep) == [x] + Split(rest, sep)
  {
    var s := x + [sep] + rest;
    assert s[|x|] == sep;
    IndexOfFirst(x, sep, rest);
    assert s[..|x|] == x;
    assert s[|x| + 1..] == rest;
  }

  /** `split` undoes `join` on the same separator when no part contains it. */
  lemma {:induction false} SplitJoin(parts: seq<string>, sep: char)
    requires |parts| >= 1
    requires forall k | 0 <= k < |parts| :: sep !in parts[k]
    ensures Split(Join(parts, [sep]), sep) == parts
    decreases |parts|
  {
    if |parts| == 1 {
      assert Join(parts, [sep]) == parts[0];
    } else {
      assert Join(parts, [sep]) == parts[0] + [sep] + Join(parts[1..], [sep]);
      SplitAtFirst(parts[0], sep, Join(parts[1..], [sep]));
      SplitJoin(parts[1..], sep);
      assert parts == [parts[0]] + parts[1..];
    }
  }

  /** `join` undoes `split`: splitting loses nothing but the separators. */
  lemma {:induction false} JoinSplit(s: string, sep: char)
    ensures Join(Split(s, sep), [sep]) == s
    decreases |s|
  {
    if sep in s {
      var i := IndexOf(s, sep);
      var tail := Split(s[i + 1..], sep);
      JoinSplit(s[i + 1..], sep);
      assert Split(s, sep) == [s[..i]] + tail;
      assert ([s[..i]] + tail)[1..] == tail;
      assert Join([s[..i]] + tail, [sep]) == s[..i] + [sep] + Join(tail, [sep]);
      assert s == s[..i] + [sep] + s[i + 1..];
    }
  }

  lemma SpacesHaveNoComma(lead: string)
    requires forall k | 0 <= k < |lead| :: IsSpace(lead[k])
    ensures ',' !in lead
  {
  }

  /** Python `", ".join(items)` re-read as `[t.strip() for t in v.split(",")]`
      gives back `items` when they are stripped and comma-free; `lead` is the
      whitespace that the separator leaves in front of an item. */
  lemma {:induction false} ReparseJoin(lead: string, items: seq<string>)
    requires |items| >= 1
    requires forall k | 0 <= k < |lead| :: IsSpace(lead[k])
    requires forall k | 0 <= k < |items| :: ',' !in items[k] && IsStripped(items[k])
    ensures StripAll(Split(lead + Join(items, ", "), ',')) == items
    decreases |items|
  {
    SpacesHaveNoComma(lead);
    StripLeadingSpace(lead, items[0]);
    if |items| == 1 {
      var head := lead + items[0];
      assert lead + Join(items, ", ") == head;
      assert Split(head, ',') == [head];
      assert StripAll([head]) == [items[0]];
    } else {
      var tail := Split(" " + Join(items[1..], ", "), ',');
      SplitStep(lead, items);
      StripAllCons(lead + items[0], tail);
      TailItems(items);
      ReparseJoin(" ", items[1..]);
      HeadTail(items);
    }
  }

  lemma SplitStep(lead: string, items: seq<string>)
    requires |items| >= 2
    requires ',' !in lead && ',' !in items[0]
    ensures Split(lead + Join(items, ", "), ',')
         == [lead + items[0]] + Split(" " + Join(items[1..], ", "), ',')
  {
    JoinCons(lead, items);
    SplitAtFirst(lead + items[0], ',', " " + Join(items[1..], ", "));
  }

  lemma TailItems(items: seq<string>)
    requires |items| >= 1
    requires forall k | 0 <= k < |items| :: ',' !in items[k] && IsStripped(items[k])
    ensures forall k | 0 <= k < |items[1..]| :: ',' !in items[1..][k] && IsStripped(items[1..][k])
  {
    forall k | 0 <= k < |items[1..]| ensures ',' !in items[1..][k] && IsStripped(items[1..][k]) {
      assert items[1..][k] == items[k + 1];
    }
  }

  lemma HeadTail<T>(s: seq<T>)
    requires |s| >= 1
    ensures [s[0]] + s[1..] == s
  {
  }

  lemma StripAllCons(head: string, tail: seq<string>)
    ensures StripAll([head] + tail) == [Strip(head)] + StripAll(tail)
  {
    assert ([head] + tail)[1..] == tail;
  }

  lemma JoinCons(lead: string, items: seq<string>)
    requires |items| >= 2
    ensures lead + Join(items, ", ") == (lead + items[0]) + [','] + (" " + Join(items[1..], ", "))
  {
    var a, r := items[0], Join(items[1..], ", ");
    assert Join(items, ", ") == (a + ", ") + r;
    Assoc(a, ", ", r);
    assert ", " == [','] + " ";
    Assoc([','], " ", r);
    Assoc(lead, a, ", " + r);
    Assoc(lead + a, [','], " " + r);
  }

  lemma Assoc<T>(a: seq<T>, b: seq<T>, c: seq<T>)
    ensures a + (b + c) == (a + b) + c
  {
  }

  /** Python `str.lower()` restricted to ASCII letters; every other character
      is kept as it is. */
  function Lower(s: string): (r: string)
    ensures |r| == |s|
    ensures forall k | 0 <= k < |s| :: r[k] == LowerChar(s[k])
    ensures forall k | 0 <= k < |s| ::
      if 'A' <= s[k] <= 'Z' then r[k] as int == s[k] as int + 32 else r[k] == s[k]
    ensures forall k | 0 <= k < |r| :: !('A' <= r[k] <= 'Z')
  {
    seq(|s|, k requires 0 <= k < |s| => LowerChar(s[k]))
  }

  /** Lower-casing twice is lower-casing once. */
  lemma LowerIdempotent(s: string)
    ensures Lower(Lower(s)) == Lower(s)
  {
  }

  function LowerChar(c: char): char {
    if 'A' <= c <= 'Z' then (c as int + 32) as char else c
  }

  /** Python `sub in s`: it holds only when `sub` fits in `s`, and it finds
      an occurrence at the start as well as one at the very end. */
  predicate Contains(s: string, sub: string)
    decreases |s|
    ensures Contains(s, sub) ==> |sub| <= |s|
    ensures |sub| <= |s| && s[..|sub|] == sub ==> Contains(s, sub)
    ensures |sub| <= |s| && s[|s| - |sub|..] == sub ==> Contains(s, sub)
  {
    if |s| < |sub| then false
    else
      assert |s| > |sub| ==> s[1..][|s| - 1 - |sub|..] == s[|s| - |sub|..];
      s[..|sub|] == sub || Contains(s[1..], sub)
  }

  /** `sub` occurs in `s` starting at position `i`. */
  ghost predicate OccursAt(s: string, sub: string, i: int) {
    0 <= i <= |s| - |sub| && s[i..i + |sub|] == sub
  }

  /** `Contains` holds exactly when `sub` occurs at some position of `s`. */
  lemma {:induction false} ContainsAt(s: string, sub: string)
    ensures Contains(s, sub) <==> exists i :: OccursAt(s, sub, i)
    decreases |s|
  {
    if |s| >= |sub| {
      if s[..|sub|] == sub {
        assert s[0..|sub|] == s[..|sub|];
        assert OccursAt(s, sub, 0);
      }
      if |s| > 0 {
        ContainsAt(s[1..], sub);
        if Contains(s[1..], sub) {
          var i :| OccursAt(s[1..], sub, i);
          assert s[i + 1..i + 1 + |sub|] == s[1..][i..i + |sub|];
          assert OccursAt(s, sub, i + 1);
        }
        if exists i :: OccursAt(s, sub, i) {
          var i :| OccursAt(s, sub, i);
          if i > 0 {
            assert s[1..][i - 1..i - 1 + |sub|] == s[i..i + |sub|];
            assert OccursAt(s[1..], sub, i - 1);
          } else {
            assert s[..|sub|] == s[0..|sub|];
          }
        }
      } else {
        assert OccursAt(s, sub, 0);
      }
    } else {
      forall i ensures !OccursAt(s, sub, i) { }
    }
  }
}

=== FILE: resume.dfy ===
/** The tailored résumé as the fitting code sees it: a record of optional
    sections. A section that is absent from the résumé dictionary is `None`.
    Every entry's `bullets` list is a plain sequence; an entry without a
    `bullets` key behaves exactly like one with an empty list in all of the
    fitting code, so the two are not distinguished. */
module ResumeData {

  datatype Option<+T> = None | Some(value: T)

  /** One project: index 0 of `bullets` is the most important bullet. */
  datatype Project = Project(name: string, dates: string, bullets: seq<string>)

  /** One job. The title is read from `title`, falling back to `role`. */
  datatype Experience = Experience(
    company: string,
    title: Option<string>,
    role: Option<string>,
    dates: string,
    bullets: seq<string>)

  /** One leadership or activity entry. */
  datatype Activity = Activity(title: string, bullets: seq<string>)

  /** Skills by category, in the dictionary's insertion order; each value is a
      comma-separated list of skills, most relevant first. */
  type Skills = seq<(string, string)>

  datatype Resume = Resume(
    summary: Option<string>,
    skills: Option<Skills>,
    experience: Option<seq<Experience>>,
    projects: Option<seq<Project>>,
    leadership: Option<seq<Activity>>)
}

=== FILE: skills.dfy ===
/** Fitting the skills section: keep the first `max_lines` categories, then
    rebuild each category's comma-separated value from the longest run of its
    leading items that fits the 180-character line budget left after the
    `"• <category>: "` prefix. Items are never split. */
module SkillsFit {
  import opened PyText
  import opened ResumeData

  /** Character budget for one rendered category (about two lines). */
  const MaxCharsPerCategory: int := 180

  /** The text rendered in front of a category's value. */
  function LinePrefix(category: string): string {
    "• " + category + ": "
  }

  /** Characters left for the value of `category`; negative when the prefix
      alone is over budget. */
  function Available(category: string): int {
    MaxCharsPerCategory - |LinePrefix(category)|
  }

  /** Budget charged for one item: its length plus two for the `", "` that
      follows it. */
  function ItemCost(item: string): nat {
    |item| + 2
  }

  /** Budget charged for a run of items. */
  function TotalCost(items: seq<string>): nat {
    if |items| == 0 then 0 else ItemCost(items[0]) + TotalCost(items[1..])
  }

  /** The skill items of a value: split on commas, each stripped. */
  function ParseItems(value: string): (items: seq<string>)
    ensures |items| >= 1
    ensures forall k | 0 <= k < |items| :: ',' !in items[k] && IsStripped(items[k])
  {
    StripAll(Split(value, ','))
  }

  lemma {:induction false} TotalCostSplit(items: seq<string>, j: nat)
    requires 0 < j <= |items|
    ensures TotalCost(items[..j]) == ItemCost(items[0]) + TotalCost(items[1..][..j - 1])
  {
    assert items[..j][1..] == items[1..][..j - 1];
  }

  /** The greedy loop: take items while the running cost stays within
      `available`, stopping at the first item that does not fit. The result is
      the longest leading run of items whose total cost is within budget. */
  function FitItems(items: seq<string>, available: int): (kept: seq<string>)
    decreases |items|
    ensures IsPrefix(kept, items)
    ensures TotalCost(kept) <= available || kept == []
    ensures forall j | |kept| < j <= |items| :: TotalCost(items[..j]) > available
  {
    if |items| > 0 && ItemCost(items[0]) <= available then
      var rest := FitItems(items[1..], available - ItemCost(items[0]));
      assert ([items[0]] + rest)[1..] == rest;
      assert forall j | |rest| + 1 < j <= |items| :: TotalCost(items[..j]) > available by {
        forall j | |rest| + 1 < j <= |items| ensures TotalCost(items[..j]) > available {
          TotalCostSplit(items, j);
        }
      }
      [items[0]] + rest
    else
      assert forall j | 0 < j <= |items| :: TotalCost(items[..j]) > available by {
        forall j | 0 < j <= |items| ensures TotalCost(items[..j]) > available {
          TotalCostSplit(items, j);
        }
      }
      []
  }

  /** The new value of one category: its fitting items joined by `", "`. */
  function FitCategory(category: string, value: string): (v: string)
    ensures v == "" || |LinePrefix(category) + v| + 2 <= MaxCharsPerCategory
  {
    var kept := FitItems(ParseItems(value), Available(category));
    if |kept| > 0 then
      JoinedCostLength(kept);
      Join(kept, ", ")
    else Join(kept, ", ")
  }

  /** The skills section after `trim_skills_to_fit`: the leading categories,
      in their original order, each with its fitted value. */
  function TrimSkills(skills: Skills, maxLines: int := 6): (r: Skills)
    ensures |skills| == 0 ==> r == skills
    ensures |r| <= |skills|
    ensures maxLines >= 0 ==> |r| == Min(|skills|, maxLines)
    ensures maxLines < 0 ==> |r| == Max(0, |skills| + maxLines)
    ensures forall k | 0 <= k < |r| :: r[k] == (skills[k].0, FitCategory(skills[k].0, skills[k].1))
  {
    if |skills| == 0 then skills
    else
      var kept := CapLength(skills, maxLines);
      seq(|kept|, k requires 0 <= k < |kept| => (kept[k].0, FitCategory(kept[k].0, kept[k].1)))
  }

  /** `trim_skills_to_fit` on the résumé: only the skills section changes;
      it keeps its leading categories in order, each with its fitted value. */
  function TrimSkillsToFit(r: Resume, maxLines: int := 6): (r': Resume)
    ensures r'.(skills := r.skills) == r
    ensures r.skills.None? ==> r' == r
    ensures r.skills.Some? ==> r'.skills.Some? && |r'.skills.value| <= |r.skills.value|
    ensures r.skills.Some? && maxLines >= 0 ==>
      |r'.skills.value| == Min(|r.skills.value|, maxLines)
    ensures r.skills.Some? && maxLines < 0 ==>
      |r'.skills.value| == Max(0, |r.skills.value| + maxLines)
    ensures r.skills.Some? ==> forall k | 0 <= k < |r'.skills.value| ::
      r'.skills.value[k] == (r.skills.value[k].0, FitCategory(r.skills.value[k].0, r.skills.value[k].1))
  {
    if r.skills.None? then r
    else r.(skills := Some(TrimSkills(r.skills.value, maxLines)))
  }

  /** `kept` is the longest leading run of `items` whose total cost is within
      `available` (possibly none of them). */
  predicate LongestFit(items: seq<string>, kept: seq<string>, available: int) {
    && IsPrefix(kept, items)
    && (kept == [] || TotalCost(kept) <= available)
    && forall j | |kept| < j <= |items| :: TotalCost(items[..j]) > available
  }

  /** At most one run of items is the longest fitting one. */
  lemma LongestFitUnique(items: seq<string>, a: seq<string>, b: seq<string>, available: int)
    requires LongestFit(items, a, available) && LongestFit(items, b, available)
    ensures a == b
  {
    assert items[..|a|] == a && items[..|b|] == b;
  }

  /** Every category of the trimmed section holds exactly the longest fitting
      leading run of its original items, joined by `", "`, and re-reading the
      value gives those items back whole. */
  lemma TrimSkillsFitsEachCategory(skills: Skills, maxLines: int)
    ensures var r := TrimSkills(skills, maxLines);
      forall k | 0 <= k < |r| :: r[k].0 == skills[k].0 &&
        exists kept :: && LongestFit(ParseItems(skills[k].1), kept, Available(skills[k].0))
                       && r[k].1 == Join(kept, ", ")
                       && (kept != [] ==> ParseItems(r[k].1) == kept)
  {
    var r := TrimSkills(skills, maxLines);
    forall k | 0 <= k < |r|
      ensures exists kept :: && LongestFit(ParseItems(skills[k].1), kept, Available(skills[k].0))
                             && r[k].1 == Join(kept, ", ")
                             && (kept != [] ==> ParseItems(r[k].1) == kept)
    {
      var kept := FitItems(ParseItems(skills[k].1), Available(skills[k].0));
      FitCategoryKeepsWholeItems(skills[k].0, skills[k].1);
      assert LongestFit(ParseItems(skills[k].1), kept, Available(skills[k].0));
    }
  }

  /** The fitted value is the longest leading run of the original items, in
      order and unsplit, that fits the budget: re-reading it the way the
      function reads its input gives back exactly those items. */
  lemma FitCategoryKeepsWholeItems(category: string, value: string)
    ensures var items := ParseItems(value);
      var kept := FitItems(items, Available(category));
      && IsPrefix(kept, items)
      && (forall j | |kept| < j <= |items| :: TotalCost(items[..j]) > Available(category))
      && (|kept| > 0 ==> ParseItems(FitCategory(category, value)) == kept)
  {
    var kept := FitItems(ParseItems(value), Available(category));
    if |kept| > 0 {
      assert forall k | 0 <= k < |kept| :: ',' !in kept[k] && IsStripped(kept[k]) by {
        forall k | 0 <= k < |kept| ensures ',' !in kept[k] && IsStripped(kept[k]) {
          assert kept[k] == ParseItems(value)[k];
        }
      }
      ReparseJoin("", kept);
      assert "" + Join(kept, ", ") == Join(kept, ", ");
    }
  }

  lemma {:induction false} JoinedCostLength(items: seq<string>)
    requires |items| >= 1
    ensures |Join(items, ", ")| + 2 == TotalCost(items)
    decreases |items|
  {
    if |items| > 1 {
      JoinedCostLength(items[1..]);
    }
  }

  /** All items that already fit are kept. */
  lemma {:induction false} FitItemsAll(items: seq<string>, available: int)
    requires TotalCost(items) <= available
    ensures FitItems(items, available) == items
    decreases |items|
  {
    if |items| > 0 {
      FitItemsAll(items[1..], available - ItemCost(items[0]));
    }
  }

  /** An empty value stays empty. */
  lemma EmptyValueStays(category: string)
    ensures FitCategory(category, "") == ""
  {
    assert Split("", ',') == [""];
    assert Strip("") == "";
    assert ParseItems("") == [""];
    var kept := FitItems([""], Available(category));
    assert kept == [] || kept == [""];
  }

  /** Fitting a category a second time changes nothing. */
  lemma FitCategoryIdempotent(category: string, value: string)
    ensures FitCategory(category, FitCategory(category, value)) == FitCategory(category, value)
  {
    var avail := Available(category);
    var kept := FitItems(ParseItems(value), avail);
    if |kept| > 0 {
      FitCategoryKeepsWholeItems(category, value);
      FitItemsAll(kept, avail);
    } else {
      assert FitCategory(category, value) == "";
      EmptyValueStays(category);
    }
  }

  /** Trimming the skills section a second time with the same non-negative
      limit changes nothing. */
  lemma TrimSkillsIdempotent(skills: Skills, maxLines: int)
    requires maxLines >= 0
    ensures TrimSkills(TrimSkills(skills, maxLines), maxLines) == TrimSkills(skills, maxLines)
  {
    var once := TrimSkills(skills, maxLines);
    if |once| > 0 {
      var twice := TrimSkills(once, maxLines);
      assert CapLength(once, maxLines) == once;
      forall k | 0 <= k < |once| ensures twice[k] == once[k] {
        FitCategoryIdempotent(skills[k].0, skills[k].1);
      }
    }
  }
}
